=== FILE: README.md ===
# Mute deadline scheduler — a Dafny model

The bot mutes a user who said something offensive and unmutes them
automatically once a deadline passes. This project models the scheduling core:

- **the deadline store** (`PersistanceClient`): a Redis map from user id to the
  Unix second at which the mute ends. It offers an atomic set-if-strictly-later,
  a read, a delete and a key listing;
- **the reconciliation pipeline** (`unmute::start_workers`): a poller lists the
  muted users every tick and queues the list. A worker takes each queued batch
  and lifts every mute whose deadline has strictly passed. It deletes a record
  only after the lift succeeded;
- **the registrar** (the `mute` command): it asks the platform to mute the user,
  registers `now + mute_duration` minutes with set-if-later and posts a message
  naming the deadline the store reports;
- **the older worker** (`UnmuteWorker::start`): the same loop over a file-backed
  store with text keys. Its due-test is `<=`, and it panics on a malformed key or
  a failed member lookup.

The store is a `map`, and every operation is a pure function of the store and
its inputs. Everything the code learns from outside is a parameter:

- the wall clock (`now`, re-read for every key), as a whole-second reading:
  rounded up for the current worker, truncated for the older one, so that
  each worker's comparison with the full clock is exact;
- the `LAST_YEAR` sentinel (`lastYear`);
- whether each store call found a connection;
- whether each platform call succeeded;
- whether a swallowed delete went through.

The listing of keys is a method that picks the keys in an unspecified order, as
Redis `KEYS` does.

Timestamps are whole Unix seconds. `Instant` is the range a chrono
`DateTime<Utc>` can hold: -8334601228800 to 8210266876799. These are the
bounds of chrono 0.4.35 and later, years -262143 to 262142. A stored value is
read the way the program reads it: Redis GET as an `i64`, then
`DateTime::from_timestamp`.

Files: `wrappers.dfy` (Option/Result), `time.dfy` (integer widths, instants,
due-tests), `listing.dfy` (key enumeration, a queue flattened into one sequence, stores that only shrink), `persistance.dfy` (the store),
`unmute.dfy` (poller and worker), `commands.dfy` (the `mute` command),
`legacy.dfy` (the older worker).

## Model

| member | source | states |
|---|---|---|
| Time.AsI64 | src/commands.rs:47 | `mute_duration as i64` keeps the value modulo 2^64 inside the `i64` range; durations above `i64::MAX` become negative |
| Listing.ListKeys | src/services.rs:95 | the listing names every key of the store exactly once and nothing else |
| Persistance.GetUnmuteTime | src/services.rs:98-103 | a deadline is returned exactly when there is a connection, the key exists and holds an integer in the instant range; it is then the stored value |
| Persistance.UpdateUnmuteTime | src/services.rs:105-129 | set-if-strictly-later: a readable deadline becomes the later of itself and the candidate; with none, the candidate is written only if later than the sentinel; the reported deadline is the one stored and is never before the candidate; a failure leaves the store unchanged and is a panic exactly when an out-of-range `i64` is read back; other users' entries are untouched |
| Persistance.ClearUnmuteTime | src/services.rs:131-137 | only a missing connection is an error; the key is gone when the connection and the delete went through; a missing connection or a failed delete leaves the store unchanged; other entries are untouched |
| Persistance.GetAllMutedUserId | src/services.rs:92-96 | fails exactly when there is no connection; otherwise lists every tracked user exactly once |
| Persistance.GetAfterUpdate | src/services.rs:120-126 | after a successful update, reading the user returns exactly the deadline the update reported |
| Persistance.UpdateIdempotent | src/services.rs:112-126 | repeating an update leaves the store and the reported deadline unchanged |
| Persistance.GetAfterClear | src/services.rs:131-137 | after a clear whose delete went through, the user has no deadline |
| Persistance.ClearIdempotent | src/services.rs:131-137 | clearing twice is clearing once; clearing an absent user changes nothing and returns Ok |
| Persistance.UpdatesKeepLatest | src/services.rs:112-125 | a run of updates for one user ends with the maximum of all candidates and the previous deadline: no registration is lost |
| Persistance.UpdateOrderIrrelevant | src/services.rs:112-125 | any two orders of the same registrations leave the same deadline |
| Unmute.ReconcileOne | src/services.rs:36-43 | a lift is attempted exactly when a deadline is readable and strictly before the clock, and acts on that deadline; a successful lift is always followed by a clear, which removes the record when its connection and DEL go through; the record is removed only when the lift was due and the unmute, connection and DEL all succeeded, so a failure of any of them leaves the store unchanged; no other user is touched |
| Unmute.ReconcileBatch | src/services.rs:35-44 | at every position of the batch whose user has a readable deadline strictly before that position's clock and was not removed by an earlier position, the user is lifted with that deadline, that clock and that unmute outcome; every lift in the result is such a position's lift; a user leaves the store exactly when some position lifted it due and its unmute, connection and DEL succeeded; the store only loses entries; users not in the batch stay; every clear directly follows a successful lift of the same user; every removed user was cleared |
| Unmute.PollTick | src/services.rs:21-27 | a tick with a connection queues one batch listing every muted user once; a tick without one queues nothing |
| Unmute.BatchSplits | src/services.rs:35-44 | handling a batch and then a second batch from the store it left gives the events and store of handling both as one batch |
| Unmute.Drain | src/services.rs:35-45 | draining the queue in FIFO order is handling all its listings as one batch, so the batch statement holds at every listing of every tick: a user still recorded and due where a later tick lists it again is lifted there, every lift is owed by some listing, and a user is removed exactly when some listing lifted it and its unmute, connection and DEL succeeded |
| Unmute.FailedLiftIsRetried | src/services.rs:35-43 | when two ticks list a due user and the first unmute fails, the drain lifts the user at both, keeps the record after the failure and deletes it only after the successful retry |
| Unmute.EmptyStoreLiftsNoOne | src/services.rs:36-39 | over an empty store a batch records no lift and no clear and leaves the store empty |
| Unmute.NotDueIsLeftAlone | src/services.rs:37-39 | a batch in which no listed user is due records no lift and no clear and changes nothing |
| Commands.CandidateDeadline | src/commands.rs:47 | a candidate differs from `now` by whole minutes, and their number is the configured duration modulo 2^64; a duration up to `i64::MAX` never gives a candidate before `now`, and when `now` plus that many minutes is in the instant range the candidate is exactly that instant; a larger duration wraps to `2^64 - d` minutes before `now`, and when that instant is in range it is the candidate |
| Commands.Mute | src/commands.rs:25-65 | the command fails with an overflow exactly when there is no candidate deadline, and then it has touched no store and posted no message; otherwise it performs the set-if-later update with the candidate whatever the platform said, and the store is what that update leaves; a message is posted exactly when the update reports a deadline, and a failed update ends the command with that error; with a pending deadline the store holds the later of it and the candidate; the message is a quote exactly when the mute succeeded, and a quote names the reported deadline, which is never before the candidate; only the offender's entry changes |
| Commands.PlatformOutcomeOnlyPicksMessage | src/commands.rs:33-60 | the mute's outcome changes only the kind of message; the store, the result and the deadline are the same either way |
| Commands.RepeatMuteKeepsLater | src/commands.rs:44-49 | a second mute of a user leaves and reports the later of the pending deadline and its own candidate |
| Commands.ShorterRepeatIsIgnored | src/commands.rs:44-58 | a 15-minute mute at t0 then a 5-minute mute at t0 + 1 minute both report t0 + 15 minutes, and the second leaves the store as it was |
| Commands.MuteThenLift | src/commands.rs:44-58 | a 15-minute mute at t0 is left alone by the worker's handling of the user at t0 + 14 minutes, and the worker's handling of the user at t0 + 16 minutes lifts it and deletes the record |
| LegacyWorker.ParseU64 | src/lib.rs:74 | a parsed key starts with a digit or with `+` followed by more text, and every character after the first is a digit; a string of digits, with or without one leading `+`, parses to its value when that fits in 64 bits and is an error when it does not |
| LegacyWorker.DecimalStringValue | src/lib.rs:74 | the decimal text of a number consists of digits and denotes that number |
| LegacyWorker.ParseU64RoundTrip | src/lib.rs:74 | a key written as a user id's decimal text parses back to that id |
| LegacyWorker.LegacyReconcileOne | src/lib.rs:70-89 | a key whose deadline does not load is skipped; the task panics exactly when a due key is not a `u64` or its member lookup fails, and then changes nothing; an edit is made exactly when the deadline loads and is at or before the clock, the key parses and the member is found, and it acts on that deadline and user; a successful edit is always followed by a removal, which deletes the record when it goes through; the record is removed only when the edit was due and both the edit and the removal succeeded, so a failure of either leaves the store unchanged |
| LegacyWorker.LegacyReconcileBatch | src/lib.rs:69-91 | the batch panics exactly when some position's key is due under a stored deadline not removed by an earlier position and does not parse or is not found; every edit in the result is owed by a position whose key is due, parses, is found and was not removed earlier, and carries that position's clock and outcome; without a panic every such position is edited; a key leaves the store only where a position edited and removed it, and without a panic every such key leaves; keys outside the batch stay; removals follow successful edits |
| LegacyWorker.PanicAbandonsBatch | src/lib.rs:70-79 | once a batch panics, appending more keys to it changes nothing: the panic ends the task before any later key is handled |
| LegacyWorker.LegacyBatchSplits | src/lib.rs:69-91 | handling a batch and then, unless it panicked, a second batch from the store it left gives the events, store and panic of handling both as one batch |
| LegacyWorker.PanicAbandonsQueue | src/lib.rs:69-79 | once draining panics, queueing more batches changes nothing: the dead task never receives them |
| LegacyWorker.WellFormedBatchRuns | src/lib.rs:74-79 | a batch whose keys all parse and whose members are all found never panics |
| LegacyWorker.LegacyDrain | src/lib.rs:69-92 | draining the queue in FIFO order is handling all its listings as one batch, so the batch statement holds at every listing of every tick: the drain panics exactly when a listing panics that no earlier listing removed, and otherwise a key still stored and due where a later tick lists it again is edited there, every edit is owed by some listing, and a key is removed exactly when some listing edited and removed it |
| LegacyWorker.LegacyPollTick | src/lib.rs:55-61 | a successful `list` queues one batch naming every key once; a failed one queues nothing |
| LegacyWorker.DueTestsDisagreeOnlyAtTheDeadline | src/lib.rs:73 | for one clock reading in seconds and nanoseconds and the same whole-second deadline, the older worker edits exactly when the deadline is at or before the full reading and the current worker (src/services.rs:38) lifts exactly when it is strictly before; the two decide differently only when the clock reads exactly the deadline second with zero nanoseconds |

## Left out

- Tasks, the unbounded channel and the sleeps (`tokio::spawn`, `sleep`): a poll tick, a batch and a FIFO queue of batches are modelled as sequential pure steps instead.
- Redis WATCH/MULTI/EXEC retries and r2d2 pooling: `update_unmute_time` is one atomic map step, and pool failure is the `connected` input. An I/O error in the middle of the transaction is not modelled separately.
- Key encoding: store keys are `u64` user ids. A foreign key that is not a number, which would make `KEYS` fail to convert, is not modelled.
- Platform HTTP calls (`edit_member`, `get_member`, `send_message`): these are network calls, replaced by boolean outcomes.
- The `quotes` and `quote` modules: random choice and formatting with no invariant. A reply is modelled only as its kind, user, deadline and minutes.
- `src/main.rs` and `src/settings.rs`: bootstrap and configuration loading. `mute_duration` and the sentinel are parameters.
- Sub-second clock readings: each worker's `now` is a whole second. The current worker's is `Utc::now()` rounded up to the next whole second, which makes its strict test exact against the whole-second deadline `get_unmute_time` returns. The older worker's is `Utc::now()` truncated, which makes its `<=` exact for whole-second deadlines.
- Sub-second deadlines in the older store: `persist` saves a full `DateTime<Utc>`, but the model's saved deadlines are whole seconds, because the code that writes them is not part of this model.
- Persistance.UpdateUnmuteTime: the candidate and the `LAST_YEAR` sentinel are whole seconds here, but both carry nanoseconds in the program. With no readable deadline and both in the same whole second, the program writes the candidate exactly when the sentinel's fraction is smaller; the model never writes and reports a failure.
- Commands.Mute: does not model the panic of `ctx.guild_id().unwrap()` when the command runs outside a guild, because that call is part of the platform mute, which is an oracle here.
- Commands.CandidateDeadline: the `Duration::minutes` bound check is not modelled on its own. Its limit is far beyond the instant range, so every duration it rejects also makes the addition overflow, which is modelled.
- LegacyWorker.DueTestsDisagreeOnlyAtTheDeadline: does not cover a clock reading in the last second of the instant range with a nonzero fraction, because its rounded-up whole second is outside that range.
- Time.MIN_TIMESTAMP and Time.MAX_TIMESTAMP follow chrono 0.4.35 and later. The chrono version the project builds with is not part of this model.

=== FILE: commands.dfy ===
/** The `mute` command, the only writer of deadlines: it asks the platform to
    mute the offender, registers `now + mute_duration` minutes with the store's
    set-if-later, and posts a message naming the deadline now in effect.

    The platform calls (the mute itself and posting the message) are oracles
    (`muted`, `sent`); the clock is the parameter `now`. */
module Commands {
  import opened Wrappers
  import opened Time
  import opened Persistance
  import Unmute

  /** The message the command posts: a quote naming the effective deadline when
      the platform mute went through, otherwise a note that the offender
      dodged it. */
  datatype Reply =
    | Quote(offender: UserId, deadline: Instant, minutes: U64)
    | Dodged(offender: UserId)

  /** Why the command ended with an error: the store update failed, posting
      the message failed, or the deadline arithmetic left the instant range
      (a panic in chrono). */
  datatype CommandError = StoreFailed(failure: Failure) | SendFailed | DeadlineOverflow

  /** The store afterwards, the message the command tried to post, and what it
      returned. */
  datatype MuteRun = MuteRun(store: Store, reply: Option<Reply>, result: Outcome<CommandError>)

  /** `Utc::now() + Duration::minutes(mute_duration as i64)`, or `None` where
      chrono panics. The configured `u64` is reinterpreted as an `i64`, so a
      duration of 2^63 minutes or more moves the deadline into the past. */
  function CandidateDeadline(now: Instant, muteDuration: U64): (r: Option<Instant>)
    ensures r.Some? ==> (r.value - now) % 60 == 0
    ensures r.Some? ==> ((r.value - now) / 60 - muteDuration) % U64_LIMIT == 0
    ensures r.Some? && muteDuration <= I64_MAX ==> now <= r.value
    ensures muteDuration <= I64_MAX && Representable(now + muteDuration * 60) ==> r == Some(now + muteDuration * 60)
    ensures muteDuration > I64_MAX && Representable(now - (U64_LIMIT - muteDuration) * 60) ==>
              r == Some(now - (U64_LIMIT - muteDuration) * 60)
  {
    var t := now + AsI64(muteDuration) * 60;
    if Representable(t) then Some(t) else None
  }

  /** The whole command. The store update happens whether or not the platform
      mute succeeded; a failed update ends the command before any message; the
      message names the deadline the store reports, which may be later than
      the candidate when an earlier, longer mute is still pending. */
  function Mute(s: Store, offender: UserId, now: Instant, muteDuration: U64, lastYear: Instant,
                muted: bool, connected: bool, sent: bool): (r: MuteRun)
    ensures AgreeExcept(s, r.store, offender)
    ensures Deadline(s, offender).Some? ==>
              && Deadline(r.store, offender).Some?
              && Deadline(s, offender).value <= Deadline(r.store, offender).value
    ensures r.reply.None? ==> r.store == s && r.result.Fail? && !r.result.error.SendFailed?
    ensures r.reply.Some? ==> (r.reply.value.Quote? <==> muted)
    ensures r.reply.Some? ==> r.reply.value.offender == offender
    ensures r.reply.Some? && r.reply.value.Quote? ==>
              && r.reply.value.minutes == muteDuration
              && CandidateDeadline(now, muteDuration).Some?
              && CandidateDeadline(now, muteDuration).value <= r.reply.value.deadline
              && offender in r.store
              && r.store[offender] == Int(r.reply.value.deadline)
    ensures r.result == Pass <==> r.reply.Some? && sent
    ensures r.result.Fail? && r.result.error.StoreFailed? ==> r.reply.None?
    ensures !connected && CandidateDeadline(now, muteDuration).Some? ==>
              r.result == Fail(StoreFailed(ConnectionFailed))
    ensures !connected ==> r.store == s && r.reply == None && r.result.Fail?
    ensures r.result == Fail(DeadlineOverflow) <==> CandidateDeadline(now, muteDuration).None?
    ensures CandidateDeadline(now, muteDuration).None? ==> r == MuteRun(s, None, Fail(DeadlineOverflow))
    ensures CandidateDeadline(now, muteDuration).Some? ==>
              var up := UpdateUnmuteTime(s, offender, CandidateDeadline(now, muteDuration).value, lastYear, connected);
              && r.store == up.store
              && (r.reply.Some? <==> up.effective.Ok?)
              && (up.effective.Err? ==> r.result == Fail(StoreFailed(up.effective.error)))
              && (r.reply.Some? && r.reply.value.Quote? ==> r.reply.value.deadline == up.effective.value)
    ensures connected && Deadline(s, offender).Some? && CandidateDeadline(now, muteDuration).Some? ==>
              && r.reply.Some?
              && Deadline(r.store, offender)
                 == Some(Max(Deadline(s, offender).value, CandidateDeadline(now, muteDuration).value))
  {
    match CandidateDeadline(now, muteDuration)
    case None => MuteRun(s, None, Fail(DeadlineOverflow))
    case Some(candidate) =>
      var update := UpdateUnmuteTime(s, offender, candidate, lastYear, connected);
      match update.effective
      case Err(failure) => MuteRun(update.store, None, Fail(StoreFailed(failure)))
      case Ok(deadline) =>
        var reply := if muted then Quote(offender, deadline, muteDuration) else Dodged(offender);
        MuteRun(update.store, Some(reply), if sent then Pass else Fail(SendFailed))
  }

  /** Whether the platform mute succeeded decides only which message is
      posted: the store, the result and the deadline in effect are the same
      either way. */
  lemma PlatformOutcomeOnlyPicksMessage(s: Store, offender: UserId, now: Instant, muteDuration: U64,
                                        lastYear: Instant, connected: bool, sent: bool)
    ensures var quoted := Mute(s, offender, now, muteDuration, lastYear, true, connected, sent);
            var dodged := Mute(s, offender, now, muteDuration, lastYear, false, connected, sent);
            && quoted.store == dodged.store
            && quoted.result == dodged.result
            && (quoted.reply.Some? <==> dodged.reply.Some?)
            && (quoted.reply.Some? ==>
                  && Deadline(quoted.store, offender).Some?
                  && quoted.reply.value == Quote(offender, Deadline(quoted.store, offender).value, muteDuration)
                  && dodged.reply.value == Dodged(offender))
  {
  }

  /** A repeat offence never shortens a pending mute: after a mute that
      reached the store, a second one leaves the later of the pending deadline
      and its own candidate, and reports it. */
  lemma RepeatMuteKeepsLater(s: Store, offender: UserId, lastYear: Instant,
                             now1: Instant, duration1: U64, muted1: bool, sent1: bool,
                             now2: Instant, duration2: U64, muted2: bool, sent2: bool)
    requires Mute(s, offender, now1, duration1, lastYear, muted1, true, sent1).reply.Some?
    requires CandidateDeadline(now2, duration2).Some?
    ensures var first := Mute(s, offender, now1, duration1, lastYear, muted1, true, sent1);
            var second := Mute(first.store, offender, now2, duration2, lastYear, muted2, true, sent2);
            && Deadline(first.store, offender).Some?
            && second.reply.Some?
            && Deadline(second.store, offender)
               == Some(Max(Deadline(first.store, offender).value, CandidateDeadline(now2, duration2).value))
  {
  }

  /** A 15-minute mute at `t0` followed by a 5-minute mute one minute later:
      the second candidate is earlier, so both replies name `t0` + 15 minutes. */
  lemma ShorterRepeatIsIgnored(s: Store, t0: Instant, lastYear: Instant)
    requires Deadline(s, 7).None?
    requires lastYear < t0 + 900
    requires Representable(t0 + 900)
    ensures var first := Mute(s, 7, t0, 15, lastYear, true, true, true);
            var second := Mute(first.store, 7, t0 + 60, 5, lastYear, true, true, true);
            && first.reply == Some(Quote(7, t0 + 900, 15))
            && second.reply == Some(Quote(7, t0 + 900, 5))
            && second.store == first.store
  {
  }

  /** A 15-minute mute at `t0`: the worker's handling of the user at `t0` + 14
      minutes leaves it alone, its handling at `t0` + 16 minutes lifts it and
      then deletes the record. */
  lemma MuteThenLift(s: Store, t0: Instant, lastYear: Instant)
    requires Deadline(s, 42).None?
    requires lastYear < t0 + 900
    requires Representable(t0 + 960)
    ensures var run := Mute(s, 42, t0, 15, lastYear, true, true, true);
            && run.reply == Some(Quote(42, t0 + 900, 15))
            && Unmute.ReconcileOne(run.store, 42, Unmute.Env(true, t0 + 840, true, true, true))
               == Unmute.Step(run.store, [])
            && Unmute.ReconcileOne(run.store, 42, Unmute.Env(true, t0 + 960, true, true, true))
               == Unmute.Step(run.store - {42}, [Unmute.Lift(42, t0 + 900, t0 + 960, true), Unmute.Clear(42)])
  {
  }
}

=== FILE: legacy.dfy ===
/** The older reconciliation pipeline, `UnmuteWorker::start` in `src/lib.rs`.
    It keeps deadlines in a file-backed key/value store whose keys are the
    user ids as text, treats a deadline as due at the deadline second itself,
    and turns two failures into panics that end the worker task: a key that is
    not a decimal `u64`, and a member lookup that fails.

    As for the current pipeline, the tasks, channel and sleep are left out and
    the clock and platform answers are oracles. */
module LegacyWorker {
  import opened Wrappers
  import opened Time
  import Listing
  import Persistance
  import Unmute

  /** What `persist.load::<DateTime<Utc>>` finds under a key: a deadline, or
      something it cannot deserialise. */
  datatype Saved = Saved(deadline: Instant) | Unloadable

  type LegacyStore = map<string, Saved>

  /** `persist.load`: `Ok` only for a present, well-formed record. */
  function Load(s: LegacyStore, key: string): Option<Instant> {
    if key in s && s[key].Saved? then Some(s[key].deadline) else None
  }

  // ---------------------------------------------------------------------
  // Decimal user ids
  // ---------------------------------------------------------------------

  predicate IsDigit(c: char) {
    '0' <= c <= '9'
  }

  predicate AllDigits(text: string) {
    forall i :: 0 <= i < |text| ==> IsDigit(text[i])
  }

  function DigitValue(c: char): nat
    requires IsDigit(c)
  {
    c as int - '0' as int
  }

  function DigitChar(d: nat): (c: char)
    requires d < 10
    ensures IsDigit(c) && DigitValue(c) == d
  {
    ('0' as int + d) as char
  }

  /** The number a string of decimal digits denotes, most significant first. */
  function DecimalValue(digits: string): nat
    requires AllDigits(digits)
    decreases |digits|
  {
    if |digits| == 0 then 0
    else DecimalValue(digits[..|digits| - 1]) * 10 + DigitValue(digits[|digits| - 1])
  }

  /** Rust's `str::parse::<u64>`: an optional leading `+`, then one or more
      ASCII digits whose value fits in 64 bits. A lone `+`, an empty string, a
      sign `-` or any other character is an error. */
  function ParseU64(text: string): (r: Option<U64>)
    ensures r.Some? ==> |text| > 0 && text[0] != '-'
    ensures r.Some? ==> forall i :: 0 < i < |text| ==> IsDigit(text[i])
    ensures r.Some? ==> IsDigit(text[0]) || (text[0] == '+' && |text| > 1)
    ensures AllDigits(text) && |text| > 0 && DecimalValue(text) < U64_LIMIT ==> r == Some(DecimalValue(text))
    ensures |text| > 1 && text[0] == '+' && AllDigits(text[1..]) && DecimalValue(text[1..]) < U64_LIMIT ==>
              r == Some(DecimalValue(text[1..]))
    ensures AllDigits(text) && |text| > 0 && DecimalValue(text) >= U64_LIMIT ==> r.None?
    ensures |text| > 1 && text[0] == '+' && AllDigits(text[1..]) && DecimalValue(text[1..]) >= U64_LIMIT ==> r.None?
  {
    var digits := if |text| > 1 && text[0] == '+' then text[1..] else text;
    if |digits| > 0 && AllDigits(digits) && DecimalValue(digits) < U64_LIMIT then Some(DecimalValue(digits))
    else None
  }

  /** `u64::to_string`: the decimal digits of `n` without leading zeros. */
  function DecimalString(n: nat): (text: string)
    ensures |text| > 0
    decreases n
  {
    if n < 10 then [DigitChar(n)] else DecimalString(n / 10) + [DigitChar(n % 10)]
  }

  /** Printing a number in decimal and reading it back gives the number. */
  lemma {:induction false} DecimalStringValue(n: nat)
    ensures AllDigits(DecimalString(n))
    ensures DecimalValue(DecimalString(n)) == n
    decreases n
  {
    if n >= 10 {
      DecimalStringValue(n / 10);
      var text := DecimalString(n);
      assert text[..|text| - 1] == DecimalString(n / 10);
    }
  }

  /** A key written as a user id's decimal text parses back to that user. */
  lemma ParseU64RoundTrip(n: U64)
    ensures ParseU64(DecimalString(n)) == Some(n)
  {
    DecimalStringValue(n);
  }

  // ---------------------------------------------------------------------
  // The worker
  // ---------------------------------------------------------------------

  /** What the outside world answers while the worker handles one key. */
  datatype LegacyEnv = LegacyEnv(
    now: Instant,        // `Utc::now()` at the due-test, truncated to a whole second
    memberFound: bool,   // `get_member` returned a member
    edited: bool,        // the member edit that unmutes returned `Ok`
    removed: bool        // `persist.remove` went through
  )

  /** The platform edits and store removals the worker makes, in order. */
  datatype LegacyEvent =
    | Edit(key: string, user: U64, deadline: Instant, now: Instant, ok: bool)
    | Remove(key: string)

  /** The store after a step, the calls made, and whether the worker task
      panicked (after which it handles nothing more). */
  datatype LegacyStep = LegacyStep(store: LegacyStore, events: seq<LegacyEvent>, crashed: bool)

  /** Every edit acted on the deadline stored in `s` under a key naming its
      user, and that deadline was at or before the clock. */
  ghost predicate EditsWereDue(s: LegacyStore, events: seq<LegacyEvent>) {
    forall i :: 0 <= i < |events| && events[i].Edit? ==>
      && Load(s, events[i].key) == Some(events[i].deadline)
      && ParseU64(events[i].key) == Some(events[i].user)
      && IsDue(events[i].deadline, events[i].now, NonStrict)
  }

  /** Every removal comes straight after a successful edit for the same key. */
  ghost predicate RemovesFollowEdits(events: seq<LegacyEvent>) {
    forall i :: 0 <= i < |events| && events[i].Remove? ==>
      && i > 0
      && events[i - 1].Edit?
      && events[i - 1].ok
      && events[i - 1].key == events[i].key
  }

  /** The worker, handling `key` with the answers `e`, finds a due deadline
      under a key that parses and a member it can edit, so it edits. */
  ghost predicate EditDue(s: LegacyStore, key: string, e: LegacyEnv) {
    && Load(s, key).Some?
    && IsDue(Load(s, key).value, e.now, NonStrict)
    && ParseU64(key).Some?
    && e.memberFound
  }

  /** The member edit and the removal both go through. */
  predicate Cleans(e: LegacyEnv) {
    e.edited && e.removed
  }

  /** The key at this position makes the worker panic: its deadline loads and
      is due, and either the key is not a decimal `u64` or the member lookup
      fails. */
  ghost predicate Panics(s: LegacyStore, key: string, e: LegacyEnv) {
    && Load(s, key).Some?
    && IsDue(Load(s, key).value, e.now, NonStrict)
    && (ParseU64(key).None? || !e.memberFound)
  }

  /** The worker's handling of one key. */
  function LegacyReconcileOne(s: LegacyStore, key: string, e: LegacyEnv): (r: LegacyStep)
    ensures Listing.OnlyRemoves(s, r.store)
    ensures forall k :: k in s && k != key ==> k in r.store
    ensures EditsWereDue(s, r.events)
    ensures RemovesFollowEdits(r.events)
    ensures r.crashed <==> Panics(s, key, e)
    ensures r.crashed ==> r.store == s && r.events == []
    ensures Load(s, key).None? ==> r == LegacyStep(s, [], false)
    ensures !e.edited ==> r.store == s
    ensures !Cleans(e) ==> r.store == s
    ensures key in s && key !in r.store ==> EditDue(s, key, e) && Cleans(e)
    ensures key in s && key !in r.store ==> Remove(key) in r.events
    ensures r.events != [] <==> EditDue(s, key, e)
    ensures r.events != [] ==> r.events[0] == Edit(key, ParseU64(key).value, Load(s, key).value, e.now, e.edited)
    ensures EditDue(s, key, e) && e.edited ==>
              && r.events == [Edit(key, ParseU64(key).value, Load(s, key).value, e.now, true), Remove(key)]
              && (e.removed ==> key !in r.store)
  {
    match Load(s, key)
    case None => LegacyStep(s, [], false)
    case Some(deadline) =>
      if !IsDue(deadline, e.now, NonStrict) then LegacyStep(s, [], false)
      else match ParseU64(key)
        case None => LegacyStep(s, [], true)
        case Some(user) =>
          if !e.memberFound then LegacyStep(s, [], true)
          else if !e.edited then LegacyStep(s, [Edit(key, user, deadline, e.now, false)], false)
          else LegacyStep(if e.removed then s - {key} else s, [Edit(key, user, deadline, e.now, true), Remove(key)], false)
  }

  lemma ConcatKeepsOrder(a: seq<LegacyEvent>, b: seq<LegacyEvent>)
    requires RemovesFollowEdits(a)
    requires RemovesFollowEdits(b)
    ensures RemovesFollowEdits(a + b)
  {
    forall i | 0 <= i < |a + b| && (a + b)[i].Remove?
      ensures i > 0 && (a + b)[i - 1].Edit? && (a + b)[i - 1].ok && (a + b)[i - 1].key == (a + b)[i].key
    {
      if i < |a| {
        assert (a + b)[i] == a[i] && (a + b)[i - 1] == a[i - 1];
      } else {
        assert (a + b)[i] == b[i - |a|];
        assert (a + b)[i - 1] == b[i - |a| - 1];
      }
    }
  }

  /** Some listing among the first `n` of the batch names `key` with a due
      deadline and answers under which the edit and the removal both went
      through: the worker edited `key` there and deleted its record. */
  ghost predicate RemovedAmong(s: LegacyStore, batch: seq<string>, envs: seq<LegacyEnv>, key: string, n: int) {
    exists j :: 0 <= j < n && j < |batch| && j < |envs| && batch[j] == key && EditDue(s, key, envs[j]) && Cleans(envs[j])
  }

  /** The worker owes an edit at position `i` of the batch: the key's
      deadline is due there, the key parses, the member is found, and no
      earlier listing has already removed the record (an earlier failed
      edit or removal leaves it to be handled again). */
  ghost predicate OwesEdit(s: LegacyStore, batch: seq<string>, envs: seq<LegacyEnv>, i: int) {
    && 0 <= i < |batch| && i < |envs|
    && EditDue(s, batch[i], envs[i])
    && !RemovedAmong(s, batch, envs, batch[i], i)
  }

  /** The edit owed at position `i`: the key, the user it names, its stored
      deadline, the clock there and the platform's answer there. */
  ghost function OwedEdit(s: LegacyStore, batch: seq<string>, envs: seq<LegacyEnv>, i: int): LegacyEvent
    requires OwesEdit(s, batch, envs, i)
  {
    Edit(batch[i], ParseU64(batch[i]).value, Load(s, batch[i]).value, envs[i].now, envs[i].edited)
  }

  /** The key at position `i` makes the worker panic if it gets there: its
      record was not removed by an earlier listing, its deadline is due, and
      it does not parse or its member is not found. */
  ghost predicate PanicsAt(s: LegacyStore, batch: seq<string>, envs: seq<LegacyEnv>, i: int) {
    && 0 <= i < |batch| && i < |envs|
    && Panics(s, batch[i], envs[i])
    && !RemovedAmong(s, batch, envs, batch[i], i)
  }

  /** One batch, key by key in order; a panic abandons the rest of it. Every
      listing of a key, not just the first, is judged against the store as
      the batch found it. */
  function LegacyReconcileBatch(s: LegacyStore, batch: seq<string>, envs: seq<LegacyEnv>): (r: LegacyStep)
    requires |envs| == |batch|
    ensures Listing.OnlyRemoves(s, r.store)
    ensures forall k :: k in s && k !in batch ==> k in r.store
    ensures EditsWereDue(s, r.events)
    ensures RemovesFollowEdits(r.events)
    ensures forall k :: k in s && k !in r.store ==> Remove(k) in r.events
    ensures forall k :: k in s && k !in r.store ==> RemovedAmong(s, batch, envs, k, |batch|)
    ensures r.crashed <==> exists i :: PanicsAt(s, batch, envs, i)
    ensures forall j :: 0 <= j < |r.events| && r.events[j].Edit? ==>
              exists i :: OwesEdit(s, batch, envs, i) && r.events[j] == OwedEdit(s, batch, envs, i)
    ensures !r.crashed ==> forall k :: k in s && RemovedAmong(s, batch, envs, k, |batch|) ==> k !in r.store
    ensures !r.crashed ==> forall i :: OwesEdit(s, batch, envs, i) ==> OwedEdit(s, batch, envs, i) in r.events
    decreases |batch|
  {
    if |batch| == 0 then LegacyStep(s, [], false)
    else
      var first := LegacyReconcileOne(s, batch[0], envs[0]);
      if first.crashed then
        assert PanicsAt(s, batch, envs, 0);
        first
      else
        var rest := LegacyReconcileBatch(first.store, batch[1..], envs[1..]);
        ConcatKeepsOrder(first.events, rest.events);
        FirstKeyThenRestKeeps(s, batch, envs, first, rest);
        FirstKeyThenRestEdits(s, batch, envs, first, rest);
        FirstKeyThenRestStore(s, batch, envs, first, rest);
        FirstKeyThenRestPanics(s, batch, envs, first, rest);
        FirstKeyThenRestOrigin(s, batch, envs, first, rest);
        if rest.crashed then LegacyStep(rest.store, first.events + rest.events, true)
        else
          FirstKeyThenRestOwed(s, batch, envs, first, rest);
          LegacyStep(rest.store, first.events + rest.events, false)
  }

  /** A key the first key did not remove has the deadline it had, and was
      removed among the first `n + 1` listings exactly when the rest of the
      batch, seen from the store the first key left, removed it among its
      first `n`. */
  lemma ShiftRemoved(s: LegacyStore, batch: seq<string>, envs: seq<LegacyEnv>, s1: LegacyStore, k: string, n: int)
    requires |envs| == |batch| && 0 <= n < |batch|
    requires s1 == LegacyReconcileOne(s, batch[0], envs[0]).store
    requires k in s1 || k !in s
    ensures Load(s1, k) == Load(s, k)
    ensures RemovedAmong(s, batch, envs, k, n + 1) <==> RemovedAmong(s1, batch[1..], envs[1..], k, n)
  {
    if RemovedAmong(s, batch, envs, k, n + 1) {
      var j :| 0 <= j < n + 1 && j < |batch| && batch[j] == k && EditDue(s, k, envs[j]) && Cleans(envs[j]);
      assert j != 0;
      assert batch[1..][j - 1] == k && envs[1..][j - 1] == envs[j];
    }
    if RemovedAmong(s1, batch[1..], envs[1..], k, n) {
      var j :| 0 <= j < n && j < |batch[1..]| && batch[1..][j] == k && EditDue(s1, k, envs[1..][j]) && Cleans(envs[1..][j]);
      assert batch[j + 1] == k && envs[j + 1] == envs[1..][j];
    }
  }

  /** Position `i + 1` of the batch is position `i` of the rest, seen from
      the store the first key left, when the first key did not remove it. */
  lemma ShiftPosition(s: LegacyStore, batch: seq<string>, envs: seq<LegacyEnv>, s1: LegacyStore, i: int)
    requires |envs| == |batch| && 0 <= i < |batch| - 1
    requires s1 == LegacyReconcileOne(s, batch[0], envs[0]).store
    requires batch[i + 1] in s1 || batch[i + 1] !in s
    ensures PanicsAt(s1, batch[1..], envs[1..], i) <==> PanicsAt(s, batch, envs, i + 1)
    ensures OwesEdit(s1, batch[1..], envs[1..], i) <==> OwesEdit(s, batch, envs, i + 1)
    ensures OwesEdit(s, batch, envs, i + 1) ==> OwedEdit(s1, batch[1..], envs[1..], i) == OwedEdit(s, batch, envs, i + 1)
  {
    var k := batch[i + 1];
    assert batch[1..][i] == k && envs[1..][i] == envs[i + 1];
    ShiftRemoved(s, batch, envs, s1, k, i);
  }

  /** The first key and the rest of the batch together only remove entries,
      and only after a successful edit of a due key. */
  lemma FirstKeyThenRestKeeps(s: LegacyStore, batch: seq<string>, envs: seq<LegacyEnv>,
                              first: LegacyStep, rest: LegacyStep)
    requires |envs| == |batch| > 0
    requires first == LegacyReconcileOne(s, batch[0], envs[0]) && !first.crashed
    requires Listing.OnlyRemoves(first.store, rest.store)
    requires forall k :: k in first.store && k !in batch[1..] ==> k in rest.store
    requires forall k :: k in first.store && k !in rest.store ==> Remove(k) in rest.events
    ensures Listing.OnlyRemoves(s, rest.store)
    ensures forall k :: k in s && k !in batch ==> k in rest.store
    ensures forall k :: k in s && k !in rest.store ==> Remove(k) in first.events + rest.events
  {
    forall k | k in s && k !in batch
      ensures k in rest.store
    {
      assert k !in batch[1..];
    }
    var events := first.events + rest.events;
    forall k | k in s && k !in rest.store
      ensures Remove(k) in events
    {
      if k in first.store {
        assert Remove(k) in rest.events;
      } else {
        assert Remove(k) in first.events;
      }
    }
  }

  /** Every edit, by the first key or by the rest, acted on a deadline the
      batch found due: the first key changed no record but its own. */
  lemma FirstKeyThenRestEdits(s: LegacyStore, batch: seq<string>, envs: seq<LegacyEnv>,
                              first: LegacyStep, rest: LegacyStep)
    requires |envs| == |batch| > 0
    requires first == LegacyReconcileOne(s, batch[0], envs[0]) && !first.crashed
    requires EditsWereDue(first.store, rest.events)
    ensures EditsWereDue(s, first.events + rest.events)
  {
    var events := first.events + rest.events;
    forall i | 0 <= i < |events| && events[i].Edit?
      ensures Load(s, events[i].key) == Some(events[i].deadline)
      ensures ParseU64(events[i].key) == Some(events[i].user)
      ensures IsDue(events[i].deadline, events[i].now, NonStrict)
    {
      if i < |first.events| {
        assert events[i] == first.events[i];
      } else {
        assert events[i] == rest.events[i - |first.events|];
      }
    }
  }

  /** A key leaves the store only where some listing of it edited and
      removed it, and, when nothing panicked, every such key leaves. */
  lemma FirstKeyThenRestStore(s: LegacyStore, batch: seq<string>, envs: seq<LegacyEnv>,
                              first: LegacyStep, rest: LegacyStep)
    requires |envs| == |batch| > 0
    requires first == LegacyReconcileOne(s, batch[0], envs[0]) && !first.crashed
    requires Listing.OnlyRemoves(first.store, rest.store)
    requires forall k :: k in first.store && k !in rest.store ==>
               RemovedAmong(first.store, batch[1..], envs[1..], k, |batch| - 1)
    requires !rest.crashed ==>
               forall k :: k in first.store && RemovedAmong(first.store, batch[1..], envs[1..], k, |batch| - 1)
                 ==> k !in rest.store
    ensures forall k :: k in s && k !in rest.store ==> RemovedAmong(s, batch, envs, k, |batch|)
    ensures !rest.crashed ==> forall k :: k in s && RemovedAmong(s, batch, envs, k, |batch|) ==> k !in rest.store
  {
    forall k | k in s && k !in rest.store
      ensures RemovedAmong(s, batch, envs, k, |batch|)
    {
      if k in first.store {
        ShiftRemoved(s, batch, envs, first.store, k, |batch| - 1);
      } else {
        assert batch[0] == k && EditDue(s, k, envs[0]) && Cleans(envs[0]);
      }
    }
    if !rest.crashed {
      forall k | k in s && RemovedAmong(s, batch, envs, k, |batch|)
        ensures k !in rest.store
      {
        if k in first.store {
          ShiftRemoved(s, batch, envs, first.store, k, |batch| - 1);
        }
      }
    }
  }

  /** The rest of the batch panics exactly when some position after the
      first panics: the first key neither panicked nor touched any other
      record. */
  lemma FirstKeyThenRestPanics(s: LegacyStore, batch: seq<string>, envs: seq<LegacyEnv>,
                               first: LegacyStep, rest: LegacyStep)
    requires |envs| == |batch| > 0
    requires first == LegacyReconcileOne(s, batch[0], envs[0]) && !first.crashed
    requires rest.crashed <==> exists i :: PanicsAt(first.store, batch[1..], envs[1..], i)
    ensures rest.crashed <==> exists i :: PanicsAt(s, batch, envs, i)
  {
    if rest.crashed {
      var i :| PanicsAt(first.store, batch[1..], envs[1..], i);
      ShiftPosition(s, batch, envs, first.store, i);
    }
    if exists i :: PanicsAt(s, batch, envs, i) {
      var i :| PanicsAt(s, batch, envs, i);
      var k := batch[i];
      assert i != 0;
      assert !(batch[0] == k && EditDue(s, k, envs[0]) && Cleans(envs[0]));
      ShiftPosition(s, batch, envs, first.store, i - 1);
    }
  }

  /** Every edit the batch makes is one it owes. */
  lemma FirstKeyThenRestOrigin(s: LegacyStore, batch: seq<string>, envs: seq<LegacyEnv>,
                               first: LegacyStep, rest: LegacyStep)
    requires |envs| == |batch| > 0
    requires first == LegacyReconcileOne(s, batch[0], envs[0]) && !first.crashed
    requires forall j :: 0 <= j < |rest.events| && rest.events[j].Edit? ==>
               exists i :: OwesEdit(first.store, batch[1..], envs[1..], i)
                           && rest.events[j] == OwedEdit(first.store, batch[1..], envs[1..], i)
    ensures forall j :: 0 <= j < |first.events + rest.events| && (first.events + rest.events)[j].Edit? ==>
              exists i :: OwesEdit(s, batch, envs, i) && (first.events + rest.events)[j] == OwedEdit(s, batch, envs, i)
  {
    var events := first.events + rest.events;
    forall j | 0 <= j < |events| && events[j].Edit?
      ensures exists i :: OwesEdit(s, batch, envs, i) && events[j] == OwedEdit(s, batch, envs, i)
    {
      if j < |first.events| {
        assert events[j] == first.events[j] == first.events[0];
        assert OwesEdit(s, batch, envs, 0);
      } else {
        assert events[j] == rest.events[j - |first.events|];
        var i :| OwesEdit(first.store, batch[1..], envs[1..], i)
                 && rest.events[j - |first.events|] == OwedEdit(first.store, batch[1..], envs[1..], i);
        ShiftPosition(s, batch, envs, first.store, i);
      }
    }
  }

  /** When nothing panics, every edit the batch owes is made: at position 0
      by the first key, later by the rest, which sees the same record. */
  lemma FirstKeyThenRestOwed(s: LegacyStore, batch: seq<string>, envs: seq<LegacyEnv>,
                             first: LegacyStep, rest: LegacyStep)
    requires |envs| == |batch| > 0
    requires first == LegacyReconcileOne(s, batch[0], envs[0]) && !first.crashed
    requires forall i :: OwesEdit(first.store, batch[1..], envs[1..], i) ==>
               OwedEdit(first.store, batch[1..], envs[1..], i) in rest.events
    ensures forall i :: OwesEdit(s, batch, envs, i) ==> OwedEdit(s, batch, envs, i) in first.events + rest.events
  {
    forall i | OwesEdit(s, batch, envs, i)
      ensures OwedEdit(s, batch, envs, i) in first.events + rest.events
    {
      if i > 0 {
        var k := batch[i];
        assert !(batch[0] == k && EditDue(s, k, envs[0]) && Cleans(envs[0]));
        ShiftPosition(s, batch, envs, first.store, i - 1);
      }
    }
  }

  /** One step of the batch: the first key, then the rest unless it panicked. */
  lemma BatchUnfolds(s: LegacyStore, batch: seq<string>, envs: seq<LegacyEnv>)
    requires |envs| == |batch| > 0
    ensures var first := LegacyReconcileOne(s, batch[0], envs[0]);
            LegacyReconcileBatch(s, batch, envs)
            == if first.crashed then first
               else
                 var rest := LegacyReconcileBatch(first.store, batch[1..], envs[1..]);
                 LegacyStep(rest.store, first.events + rest.events, rest.crashed)
  {
  }

  /** Handling `a` and then, unless that panicked, `b` is handling `a + b`:
      the worker carries nothing from one key to the next but the store. */
  lemma {:induction false} LegacyBatchSplits(s: LegacyStore, a: seq<string>, ea: seq<LegacyEnv>,
                                             b: seq<string>, eb: seq<LegacyEnv>)
    requires |ea| == |a| && |eb| == |b|
    ensures var first := LegacyReconcileBatch(s, a, ea);
            LegacyReconcileBatch(s, a + b, ea + eb)
            == if first.crashed then first
               else
                 var rest := LegacyReconcileBatch(first.store, b, eb);
                 LegacyStep(rest.store, first.events + rest.events, rest.crashed)
    decreases |a|
  {
    if |a| == 0 {
      assert a + b == b && ea + eb == eb;
      assert [] + LegacyReconcileBatch(s, b, eb).events == LegacyReconcileBatch(s, b, eb).events;
    } else {
      Listing.ExtendedTail(a, b);
      Listing.ExtendedTail(ea, eb);
      var one := LegacyReconcileOne(s, a[0], ea[0]);
      BatchUnfolds(s, a + b, ea + eb);
      BatchUnfolds(s, a, ea);
      if !one.crashed {
        var mid := LegacyReconcileBatch(one.store, a[1..], ea[1..]);
        var tail := LegacyReconcileBatch(one.store, a[1..] + b, ea[1..] + eb);
        assert LegacyReconcileBatch(s, a + b, ea + eb) == LegacyStep(tail.store, one.events + tail.events, tail.crashed);
        assert LegacyReconcileBatch(s, a, ea) == LegacyStep(mid.store, one.events + mid.events, mid.crashed);
        LegacyBatchSplits(one.store, a[1..], ea[1..], b, eb);
        if !mid.crashed {
          var rest := LegacyReconcileBatch(mid.store, b, eb);
          assert tail == LegacyStep(rest.store, mid.events + rest.events, rest.crashed);
          Listing.JoinAssociates(one.events, mid.events, rest.events);
        }
      }
    }
  }

  /** A panic ends the task: whatever keys follow the one that panicked, in
      the same batch, are never handled, so the batch comes out the same. */
  lemma PanicAbandonsBatch(s: LegacyStore, batch: seq<string>, envs: seq<LegacyEnv>,
                           extra: seq<string>, extraEnvs: seq<LegacyEnv>)
    requires |envs| == |batch| && |extraEnvs| == |extra|
    ensures LegacyReconcileBatch(s, batch, envs).crashed ==>
              LegacyReconcileBatch(s, batch + extra, envs + extraEnvs) == LegacyReconcileBatch(s, batch, envs)
  {
    LegacyBatchSplits(s, batch, envs, extra, extraEnvs);
  }

  /** A batch whose keys all parse and whose members are all found never
      panics. */
  lemma WellFormedBatchRuns(s: LegacyStore, batch: seq<string>, envs: seq<LegacyEnv>)
    requires |envs| == |batch|
    requires forall i :: 0 <= i < |batch| ==> ParseU64(batch[i]).Some? && envs[i].memberFound
    ensures !LegacyReconcileBatch(s, batch, envs).crashed
  {
  }

  /** The worker draining its queue in FIFO order until a panic ends the
      task; batches after the one that panicked are never handled. Nothing
      distinguishes the end of one batch from the start of the next, so
      draining is handling all queued listings as one batch: a key listed
      again by a later tick is edited there, or panics there, whenever no
      earlier listing removed it. */
  function LegacyDrain(s: LegacyStore, queue: seq<seq<string>>, envs: seq<seq<LegacyEnv>>): (r: LegacyStep)
    requires Listing.Fits(queue, envs)
    ensures |Listing.Flatten(envs)| == |Listing.Flatten(queue)|
    ensures r == LegacyReconcileBatch(s, Listing.Flatten(queue), Listing.Flatten(envs))
    ensures Listing.OnlyRemoves(s, r.store)
    ensures forall k :: k in s && k !in Listing.Flatten(queue) ==> k in r.store
    ensures EditsWereDue(s, r.events)
    ensures RemovesFollowEdits(r.events)
    ensures forall k :: k in s && k !in r.store ==>
              RemovedAmong(s, Listing.Flatten(queue), Listing.Flatten(envs), k, |Listing.Flatten(queue)|)
    ensures r.crashed <==> exists i :: PanicsAt(s, Listing.Flatten(queue), Listing.Flatten(envs), i)
    ensures forall j :: 0 <= j < |r.events| && r.events[j].Edit? ==>
              exists i :: && OwesEdit(s, Listing.Flatten(queue), Listing.Flatten(envs), i)
                          && r.events[j] == OwedEdit(s, Listing.Flatten(queue), Listing.Flatten(envs), i)
    ensures !r.crashed ==>
              forall k :: k in s && RemovedAmong(s, Listing.Flatten(queue), Listing.Flatten(envs), k, |Listing.Flatten(queue)|)
                ==> k !in r.store
    ensures !r.crashed ==>
              forall i :: OwesEdit(s, Listing.Flatten(queue), Listing.Flatten(envs), i) ==>
                OwedEdit(s, Listing.Flatten(queue), Listing.Flatten(envs), i) in r.events
    decreases |queue|
  {
    Listing.FlattenFits(queue, envs);
    if |queue| == 0 then LegacyStep(s, [], false)
    else
      var first := LegacyReconcileBatch(s, queue[0], envs[0]);
      LegacyBatchSplits(s, queue[0], envs[0], Listing.Flatten(queue[1..]), Listing.Flatten(envs[1..]));
      if first.crashed then first
      else
        var rest := LegacyDrain(first.store, queue[1..], envs[1..]);
        LegacyStep(rest.store, first.events + rest.events, rest.crashed)
  }

  /** A panic ends the task: batches queued after the drain panicked are
      never handled, so the drain comes out the same. */
  lemma PanicAbandonsQueue(s: LegacyStore, queue: seq<seq<string>>, envs: seq<seq<LegacyEnv>>,
                           more: seq<seq<string>>, moreEnvs: seq<seq<LegacyEnv>>)
    requires Listing.Fits(queue, envs) && Listing.Fits(more, moreEnvs)
    ensures Listing.Fits(queue + more, envs + moreEnvs)
    ensures LegacyDrain(s, queue, envs).crashed ==>
              LegacyDrain(s, queue + more, envs + moreEnvs) == LegacyDrain(s, queue, envs)
  {
    Listing.FitsJoined(queue, envs, more, moreEnvs);
    Listing.FlattenJoined(queue, more);
    Listing.FlattenJoined(envs, moreEnvs);
    Listing.FlattenFits(queue, envs);
    Listing.FlattenFits(more, moreEnvs);
    PanicAbandonsBatch(s, Listing.Flatten(queue), Listing.Flatten(envs), Listing.Flatten(more), Listing.Flatten(moreEnvs));
  }

  /** The older poller's tick: queue the key list when `persist.list`
      succeeds, nothing otherwise. */
  method LegacyPollTick(s: LegacyStore, listed: bool, queue: seq<seq<string>>) returns (queue': seq<seq<string>>)
    ensures !listed ==> queue' == queue
    ensures listed ==>
              && |queue'| == |queue| + 1
              && queue'[..|queue|] == queue
              && Listing.Enumerates(queue'[|queue|], s.Keys)
  {
    if listed {
      var keys := Listing.ListKeys(s);
      queue' := queue + [keys];
    } else {
      queue' := queue;
    }
  }

  const NANOS_PER_SECOND: int := 1_000_000_000

  /** The two workers' due-tests side by side for one clock reading of `secs`
      whole seconds and `nanos` nanoseconds, handling the same user with the
      same whole-second deadline. The older worker's `now` is the reading
      truncated to whole seconds and the current worker's is the reading
      rounded up; with these, each worker acts exactly when the program's own
      comparison with the full reading holds (`<=` here, `<` in the current
      worker), and the two decide alike except when the clock reads exactly
      the deadline second, where only the older one acts. */
  lemma DueTestsDisagreeOnlyAtTheDeadline(s: LegacyStore, store: Persistance.Store, user: U64, deadline: Instant,
                                          secs: Instant, nanos: nat, e: LegacyEnv, env: Unmute.Env)
    requires nanos < NANOS_PER_SECOND
    requires Load(s, DecimalString(user)) == Some(deadline) && e.memberFound
    requires Persistance.Deadline(store, user) == Some(deadline) && env.getConnected
    requires e.now == secs
    requires env.now == if nanos == 0 then secs else secs + 1
    ensures LegacyReconcileOne(s, DecimalString(user), e).events != []
            <==> deadline * NANOS_PER_SECOND <= secs * NANOS_PER_SECOND + nanos
    ensures Unmute.ReconcileOne(store, user, env).events != []
            <==> deadline * NANOS_PER_SECOND < secs * NANOS_PER_SECOND + nanos
    ensures (LegacyReconcileOne(s, DecimalString(user), e).events != []
             <==> Unmute.ReconcileOne(store, user, env).events != [])
            <==> !(secs == deadline && nanos == 0)
  {
    ParseU64RoundTrip(user);
    if deadline <= secs - 1 {
      assert deadline * NANOS_PER_SECOND <= secs * NANOS_PER_SECOND - NANOS_PER_SECOND;
    } else if deadline >= secs + 1 {
      assert deadline * NANOS_PER_SECOND >= secs * NANOS_PER_SECOND + NANOS_PER_SECOND;
    }
  }
}

=== FILE: listing.dfy ===
/** Listing every key of a store, and the queue of listings the workers
    drain. Both Redis `KEYS *` and the file-backed store of the older worker
    return the keys in no specified order, so the model picks them one at a
    time from the key set, in any order. */
module Listing {

  /** `xs` lists every element of `ks` exactly once and nothing else. */
  ghost predicate Enumerates<K>(xs: seq<K>, ks: set<K>) {
    && (forall i, j :: 0 <= i < j < |xs| ==> xs[i] != xs[j])
    && (forall i :: 0 <= i < |xs| ==> xs[i] in ks)
    && (forall k :: k in ks ==> k in xs)
  }

  method ListKeys<K, V>(m: map<K, V>) returns (keys: seq<K>)
    ensures Enumerates(keys, m.Keys)
  {
    keys := [];
    var rest := m.Keys;
    while rest != {}
      invariant rest <= m.Keys
      invariant forall i :: 0 <= i < |keys| ==> keys[i] in m.Keys && keys[i] !in rest
      invariant forall k :: k in m.Keys && k !in rest ==> k in keys
      invariant forall i, j :: 0 <= i < j < |keys| ==> keys[i] != keys[j]
      decreases rest
    {
      var k :| k in rest;
      keys := keys + [k];
      rest := rest - {k};
    }
  }

  /** One oracle answer per key of every batch of a queue. */
  ghost predicate Fits<K, E>(queue: seq<seq<K>>, envs: seq<seq<E>>) {
    |envs| == |queue| && forall i :: 0 <= i < |queue| ==> |envs[i]| == |queue[i]|
  }

  /** The batches of a queue one after the other: the order in which a
      worker that drains the queue meets the keys. */
  function Flatten<T(!new)>(queue: seq<seq<T>>): (r: seq<T>)
    ensures forall x :: x in r <==> exists i :: 0 <= i < |queue| && x in queue[i]
    decreases |queue|
  {
    if |queue| == 0 then []
    else
      assert forall i :: 1 <= i < |queue| ==> queue[i] == queue[1..][i - 1];
      queue[0] + Flatten(queue[1..])
  }

  /** Fitting queues flatten to sequences of the same length. */
  lemma {:induction false} FlattenFits<K(!new), E(!new)>(queue: seq<seq<K>>, envs: seq<seq<E>>)
    requires Fits(queue, envs)
    ensures |Flatten(envs)| == |Flatten(queue)|
    decreases |queue|
  {
    if |queue| > 0 {
      assert Fits(queue[1..], envs[1..]) by {
        forall i | 0 <= i < |queue[1..]|
          ensures |envs[1..][i]| == |queue[1..][i]|
        {
          assert envs[1..][i] == envs[i + 1] && queue[1..][i] == queue[i + 1];
        }
      }
      FlattenFits(queue[1..], envs[1..]);
    }
  }

  /** Joining sequences is associative. */
  lemma JoinAssociates<T>(x: seq<T>, y: seq<T>, z: seq<T>)
    ensures x + (y + z) == (x + y) + z
  {
  }

  /** Flattening a joined queue joins the flattened parts. */
  lemma {:induction false} FlattenJoined<T(!new)>(a: seq<seq<T>>, b: seq<seq<T>>)
    ensures Flatten(a + b) == Flatten(a) + Flatten(b)
    decreases |a|
  {
    if |a| == 0 {
      assert a + b == b;
    } else {
      ExtendedTail(a, b);
      FlattenJoined(a[1..], b);
      JoinAssociates(a[0], Flatten(a[1..]), Flatten(b));
    }
  }

  /** Queues that fit their oracles still fit once joined. */
  lemma FitsJoined<K, E>(queue: seq<seq<K>>, envs: seq<seq<E>>, more: seq<seq<K>>, moreEnvs: seq<seq<E>>)
    requires Fits(queue, envs) && Fits(more, moreEnvs)
    ensures Fits(queue + more, envs + moreEnvs)
  {
    forall i | 0 <= i < |queue + more|
      ensures |(envs + moreEnvs)[i]| == |(queue + more)[i]|
    {
      if i >= |queue| {
        assert (queue + more)[i] == more[i - |queue|] && (envs + moreEnvs)[i] == moreEnvs[i - |queue|];
      }
    }
  }

  /** Appending to a non-empty sequence keeps its head, and its tail is the
      old tail with the same items appended. */
  lemma ExtendedTail<T>(xs: seq<T>, ys: seq<T>)
    requires |xs| > 0
    ensures (xs + ys)[0] == xs[0]
    ensures (xs + ys)[1..] == xs[1..] + ys
  {
  }

  /** `m'` is `m` with some entries removed and nothing else changed: all a
      worker may do to the store it drains. */
  ghost predicate OnlyRemoves<K, V>(m: map<K, V>, m': map<K, V>) {
    forall k :: k in m' ==> k in m && m'[k] == m[k]
  }
}

=== FILE: persistance.dfy ===
/** The deadline store: a Redis database mapping each muted user's id to the
    Unix second at which the mute is to be lifted.

    Connection failures are inputs (`connected`), and the `LAST_YEAR` sentinel,
    fixed once per process, is a parameter (`lastYear`). The WATCH/MULTI/EXEC
    transaction of `update_unmute_time` is one atomic step on the map. */
module Persistance {
  import opened Wrappers
  import opened Time
  import Listing

  /** A Discord user id, a `u64` in the program. */
  type UserId = U64

  /** What Redis holds under a user's key. The scheduler writes the decimal text
      of an `i64`; anything else found there is `NotAnInteger`. */
  datatype Raw = Int(n: int) | NotAnInteger

  type Store = map<UserId, Raw>

  /** Why a store operation gave no value: no pooled connection, the read-back
      after the transaction was not an `i64`, or the read-back `i64` was not a
      valid instant (an `unwrap` on `None`, which panics). */
  datatype Failure = ConnectionFailed | ReadBackFailed | Panicked

  /** A stored value read as a deadline: a Redis GET as `i64`, then
      `DateTime::from_timestamp(t, 0)`. */
  function Decode(v: Raw): Option<Instant> {
    match v
    case Int(n) => if IsI64(n) && Representable(n) then Some(n) else None
    case NotAnInteger => None
  }

  /** The readable deadline stored for `u`, if there is one. */
  function Deadline(s: Store, u: UserId): Option<Instant> {
    if u in s then Decode(s[u]) else None
  }

  /** Every entry other than the one for `u` is the same in `s` and `s'`. */
  ghost predicate AgreeExcept(s: Store, s': Store, u: UserId) {
    && (forall k :: k in s && k != u ==> k in s' && s'[k] == s[k])
    && (forall k :: k in s' && k != u ==> k in s)
  }

  function Max(a: int, b: int): int {
    if a < b then b else a
  }

  // ---------------------------------------------------------------------
  // get_unmute_time
  // ---------------------------------------------------------------------

  /** The deadline of `u`, or `None` when there is no connection, no key, a
      value that is not an `i64`, or an `i64` outside the instant range. */
  function GetUnmuteTime(s: Store, u: UserId, connected: bool): (r: Option<Instant>)
    ensures r.Some? <==> connected && u in s && s[u].Int? && Representable(s[u].n)
    ensures r.Some? ==> s[u] == Int(r.value)
  {
    if connected then Deadline(s, u) else None
  }

  // ---------------------------------------------------------------------
  // update_unmute_time
  // ---------------------------------------------------------------------

  /** The store after an update, and the deadline it reports. */
  datatype Update = Update(store: Store, effective: Result<Instant, Failure>)

  /** The deadline the transaction compares the candidate with: the stored one
      when it is readable, otherwise the sentinel. */
  function Previous(s: Store, u: UserId, lastYear: Instant): Instant {
    match Deadline(s, u)
    case Some(t) => t
    case None => lastYear
  }

  /** The GET queued after the conditional SET, converted to a `DateTime`. */
  function ReadBack(s: Store, u: UserId): Result<Instant, Failure> {
    if u !in s then Err(ReadBackFailed)
    else match s[u]
      case NotAnInteger => Err(ReadBackFailed)
      case Int(n) =>
        if !IsI64(n) then Err(ReadBackFailed)
        else if Representable(n) then Ok(n)
        else Err(Panicked)
  }

  /** Atomic set-if-strictly-later. A readable stored deadline is replaced only
      by a strictly later candidate, so it never decreases; with nothing
      readable the candidate is written only if it is later than the
      sentinel. The call reports the deadline now in effect, fails without
      touching the store when there is nothing it can report, and leaves every
      other user's entry alone. */
  function UpdateUnmuteTime(s: Store, u: UserId, candidate: Instant, lastYear: Instant, connected: bool)
    : (r: Update)
    ensures !connected ==> r == Update(s, Err(ConnectionFailed))
    ensures AgreeExcept(s, r.store, u)
    ensures r.effective.Err? ==> r.store == s
    ensures r.effective.Ok? ==>
              && u in r.store
              && r.store[u] == Int(r.effective.value)
              && candidate <= r.effective.value
    ensures connected && Deadline(s, u).Some? ==>
              r.effective == Ok(Max(Deadline(s, u).value, candidate))
    ensures connected && Deadline(s, u).None? && lastYear < candidate ==>
              r.effective == Ok(candidate)
    ensures connected && Deadline(s, u).None? && candidate <= lastYear ==>
              && r.effective.Err?
              && (r.effective.error == Panicked <==> u in s && s[u].Int? && IsI64(s[u].n))
  {
    if !connected then Update(s, Err(ConnectionFailed))
    else
      var written := if Previous(s, u, lastYear) < candidate then s[u := Int(candidate)] else s;
      Update(written, ReadBack(written, u))
  }

  // ---------------------------------------------------------------------
  // clear_unmute_time
  // ---------------------------------------------------------------------

  /** The store after a clear, and what the call returns. */
  datatype Cleared = Cleared(store: Store, result: Outcome<Failure>)

  /** Deletes the key of `u`. Only a missing connection is reported; the
      outcome of the DEL itself (`deleted`) is swallowed, so a failed DEL
      leaves the store as it was and still returns `Ok`. */
  function ClearUnmuteTime(s: Store, u: UserId, connected: bool, deleted: bool): (r: Cleared)
    ensures !connected ==> r == Cleared(s, Fail(ConnectionFailed))
    ensures connected ==> r.result == Pass
    ensures connected && deleted ==> u !in r.store
    ensures !deleted ==> r.store == s
    ensures u in r.store ==> r.store == s
    ensures AgreeExcept(s, r.store, u)
  {
    if !connected then Cleared(s, Fail(ConnectionFailed))
    else Cleared(if deleted then s - {u} else s, Pass)
  }

  // ---------------------------------------------------------------------
  // get_all_muted_user_id
  // ---------------------------------------------------------------------

  /** Redis `KEYS *`: every tracked user once, in no particular order, or an
      error when there is no connection. */
  method GetAllMutedUserId(s: Store, connected: bool) returns (r: Result<seq<UserId>, Failure>)
    ensures r.Err? <==> !connected
    ensures r.Err? ==> r.error == ConnectionFailed
    ensures r.Ok? ==> Listing.Enumerates(r.value, s.Keys)
  {
    if !connected {
      return Err(ConnectionFailed);
    }
    var keys := Listing.ListKeys(s);
    return Ok(keys);
  }

  // ---------------------------------------------------------------------
  // Properties relating several calls
  // ---------------------------------------------------------------------

  /** A successful update is seen by the next read: GET returns exactly the
      deadline the update reported. */
  lemma GetAfterUpdate(s: Store, u: UserId, candidate: Instant, lastYear: Instant)
    requires UpdateUnmuteTime(s, u, candidate, lastYear, true).effective.Ok?
    ensures GetUnmuteTime(UpdateUnmuteTime(s, u, candidate, lastYear, true).store, u, true)
            == Some(UpdateUnmuteTime(s, u, candidate, lastYear, true).effective.value)
  {
  }

  /** Repeating an update changes nothing further and reports the same
      deadline. */
  lemma UpdateIdempotent(s: Store, u: UserId, candidate: Instant, lastYear: Instant)
    ensures var once := UpdateUnmuteTime(s, u, candidate, lastYear, true);
            var twice := UpdateUnmuteTime(once.store, u, candidate, lastYear, true);
            twice.store == once.store && twice.effective == once.effective
  {
  }

  /** After a clear that reached the store and whose DEL went through, the
      user has no deadline. */
  lemma GetAfterClear(s: Store, u: UserId)
    ensures GetUnmuteTime(ClearUnmuteTime(s, u, true, true).store, u, true) == None
  {
  }

  /** Clearing twice is clearing once, and clearing an absent user changes
      nothing and is not an error. */
  lemma ClearIdempotent(s: Store, u: UserId, deleted: bool)
    ensures var once := ClearUnmuteTime(s, u, true, deleted);
            ClearUnmuteTime(once.store, u, true, deleted) == once
    ensures u !in s ==> ClearUnmuteTime(s, u, true, deleted) == Cleared(s, Pass)
  {
  }

  /** The largest of a non-empty sequence of candidates. */
  function MaxOf(cs: seq<Instant>): (m: Instant)
    requires |cs| > 0
    ensures m in cs
    ensures forall i :: 0 <= i < |cs| ==> cs[i] <= m
  {
    if |cs| == 1 then cs[0]
    else
      var rest := MaxOf(cs[1..]);
      if cs[0] < rest then rest else cs[0]
  }

  /** Registrations for one user applied one after another, each reaching the
      store. */
  function UpdateAll(s: Store, u: UserId, candidates: seq<Instant>, lastYear: Instant): Store
    decreases |candidates|
  {
    if |candidates| == 0 then s
    else UpdateAll(UpdateUnmuteTime(s, u, candidates[0], lastYear, true).store, u, candidates[1..], lastYear)
  }

  /** No registration is lost: whatever the order, a run of updates for one
      user leaves the latest of all candidates and the previous deadline. */
  lemma {:induction false} UpdatesKeepLatest(s: Store, u: UserId, candidates: seq<Instant>, lastYear: Instant)
    requires |candidates| > 0
    requires Deadline(s, u).Some? || lastYear < MaxOf(candidates)
    ensures Deadline(UpdateAll(s, u, candidates, lastYear), u)
            == Some(if Deadline(s, u).Some? then Max(Deadline(s, u).value, MaxOf(candidates))
                    else MaxOf(candidates))
    decreases |candidates|
  {
    var first := UpdateUnmuteTime(s, u, candidates[0], lastYear, true);
    var rest := candidates[1..];
    if |candidates| == 1 {
      assert UpdateAll(s, u, candidates, lastYear) == UpdateAll(first.store, u, rest, lastYear) == first.store;
    } else {
      assert MaxOf(candidates) == Max(candidates[0], MaxOf(rest));
      if Deadline(s, u).None? && candidates[0] <= lastYear {
        assert first.store == s;
      }
      UpdatesKeepLatest(first.store, u, rest, lastYear);
    }
  }

  /** The order in which concurrent registrations are serialised by the
      transaction does not matter. */
  lemma UpdateOrderIrrelevant(s: Store, u: UserId, a: seq<Instant>, b: seq<Instant>, lastYear: Instant)
    requires |a| > 0
    requires multiset(a) == multiset(b)
    requires Deadline(s, u).Some? || lastYear < MaxOf(a)
    ensures Deadline(UpdateAll(s, u, a, lastYear), u) == Deadline(UpdateAll(s, u, b, lastYear), u)
  {
    assert MaxOf(a) in multiset(b);
    assert MaxOf(b) in multiset(a);
    assert MaxOf(a) == MaxOf(b);
    UpdatesKeepLatest(s, u, a, lastYear);
    UpdatesKeepLatest(s, u, b, lastYear);
  }
}

=== FILE: time.dfy ===
/** Integer widths and the instants the scheduler compares.

    Every timestamp in the scheduler is a chrono `DateTime<Utc>`, read from and
    written to the store as whole Unix seconds in an `i64`. The model keeps only
    the whole seconds. */
module Time {

  const U64_LIMIT: int := 0x1_0000_0000_0000_0000
  const I64_MIN: int := -0x8000_0000_0000_0000
  const I64_MAX: int := 0x7FFF_FFFF_FFFF_FFFF

  /** Earliest and latest whole second a chrono `DateTime<Utc>` can hold
      (1 January of year -262143 and 31 December 23:59:59 of year 262142,
      proleptic Gregorian). `DateTime::from_timestamp` yields `None` outside. */
  const MIN_TIMESTAMP: int := -8_334_601_228_800
  const MAX_TIMESTAMP: int := 8_210_266_876_799

  type U64 = n: int | 0 <= n < U64_LIMIT

  predicate IsI64(n: int) {
    I64_MIN <= n <= I64_MAX
  }

  /** `DateTime::from_timestamp(n, 0)` returns `Some`. */
  predicate Representable(n: int) {
    MIN_TIMESTAMP <= n <= MAX_TIMESTAMP
  }

  /** A whole-second instant that a `DateTime<Utc>` can hold. */
  type Instant = t: int | MIN_TIMESTAMP <= t <= MAX_TIMESTAMP witness 0

  /** Rust's `u as i64` on a `u64`: the bit pattern is reinterpreted, so
      values of 2^63 and above come out negative. */
  function AsI64(u: U64): (r: int)
    ensures IsI64(r)
    ensures (r - u) % U64_LIMIT == 0
    ensures u <= I64_MAX ==> r == u
    ensures u > I64_MAX ==> r < 0
  {
    if u <= I64_MAX then u else u - U64_LIMIT
  }

  /** The two due-tests of the scheduler, on whole-second clock readings: the
      current worker lifts a mute once the deadline is strictly before the
      clock, the older worker once it is at or before the clock. */
  datatype DueRule = Strict | NonStrict

  predicate IsDue(deadline: int, now: int, rule: DueRule) {
    match rule
    case Strict => deadline < now
    case NonStrict => deadline <= now
  }
}

=== FILE: unmute.dfy ===
/** The reconciliation pipeline of `unmute::start_workers`: a poller that lists
    the muted users each tick and queues the list, and a worker that drains the
    queue batch by batch, lifting every mute whose deadline has strictly passed
    and deleting its record once the lift succeeded.

    The tasks, the channel and the sleep are not modelled; one poll tick, one
    batch and a FIFO queue of batches are pure steps. Whatever the worker
    learns from outside is an oracle: whether each store call found a
    connection, the wall clock at each key, and whether the platform accepted
    each unmute. */
module Unmute {
  import opened Wrappers
  import opened Time
  import opened Persistance
  import Listing

  /** What the outside world answers while the worker handles one key. */
  datatype Env = Env(
    getConnected: bool,    // `get_unmute_time` found a connection
    now: Instant,          // `Utc::now()` at the due-test, rounded up to a whole second
    unmuted: bool,         // `unmute` (the member edit) returned `Ok`
    clearConnected: bool,  // `clear_unmute_time` found a connection
    deleted: bool          // its DEL went through
  )

  /** The calls the worker makes to the platform and to the clearing
      operation, in order. A lift records the deadline it acted on and the
      clock it compared with. */
  datatype Event =
    | Lift(user: UserId, deadline: Instant, now: Instant, ok: bool)
    | Clear(user: UserId)

  /** The store after a step and the calls made during it. */
  datatype Step = Step(store: Store, events: seq<Event>)

  /** Every lift acted on the deadline stored in `s` for its user, and that
      deadline was strictly before the clock. */
  ghost predicate LiftsWereDue(s: Store, events: seq<Event>) {
    forall i :: 0 <= i < |events| && events[i].Lift? ==>
      && events[i].user in s
      && s[events[i].user] == Int(events[i].deadline)
      && IsDue(events[i].deadline, events[i].now, Strict)
  }

  /** The worker, handling `u` with the answers `e`, reads a deadline that
      is strictly past and so asks the platform to unmute. */
  ghost predicate LiftDue(s: Store, u: UserId, e: Env) {
    e.getConnected && Deadline(s, u).Some? && IsDue(Deadline(s, u).value, e.now, Strict)
  }

  /** The unmute, the clearing connection and the DEL all succeed. */
  predicate Cleans(e: Env) {
    e.unmuted && e.clearConnected && e.deleted
  }

  /** Every clear comes straight after a successful lift of the same user. */
  ghost predicate ClearsFollowLifts(events: seq<Event>) {
    forall i :: 0 <= i < |events| && events[i].Clear? ==>
      && i > 0
      && events[i - 1].Lift?
      && events[i - 1].ok
      && events[i - 1].user == events[i].user
  }

  /** The worker's handling of one user id: read the deadline, skip the user if
      there is none or it is not strictly past, otherwise ask the platform to
      unmute, and clear the record only if that succeeded. */
  function ReconcileOne(s: Store, u: UserId, e: Env): (r: Step)
    ensures Listing.OnlyRemoves(s, r.store)
    ensures AgreeExcept(s, r.store, u)
    ensures LiftsWereDue(s, r.events)
    ensures ClearsFollowLifts(r.events)
    ensures r.events != [] <==> LiftDue(s, u, e)
    ensures r.events != [] ==> r.events[0] == Lift(u, Deadline(s, u).value, e.now, e.unmuted)
    ensures !e.unmuted ==> r.store == s
    ensures !Cleans(e) ==> r.store == s
    ensures u in s && u !in r.store ==> LiftDue(s, u, e) && Cleans(e)
    ensures u in s && u !in r.store ==>
              && Deadline(s, u).Some?
              && r.events == [Lift(u, Deadline(s, u).value, e.now, true), Clear(u)]
    ensures LiftDue(s, u, e) && e.unmuted ==>
              && r.events == [Lift(u, Deadline(s, u).value, e.now, true), Clear(u)]
              && (Cleans(e) ==> u !in r.store)
  {
    match GetUnmuteTime(s, u, e.getConnected)
    case None => Step(s, [])
    case Some(deadline) =>
      if !IsDue(deadline, e.now, Strict) then Step(s, [])
      else if !e.unmuted then Step(s, [Lift(u, deadline, e.now, false)])
      else
        var cleared := ClearUnmuteTime(s, u, e.clearConnected, e.deleted);
        Step(cleared.store, [Lift(u, deadline, e.now, true), Clear(u)])
  }

  /** Some listing among the first `n` of the batch names `k` with a strictly
      past deadline and answers that clear its record: the worker lifted
      `k` there and deleted the record. */
  ghost predicate ClearedAmong(s: Store, batch: seq<UserId>, envs: seq<Env>, k: UserId, n: int) {
    exists j :: 0 <= j < n && j < |batch| && j < |envs| && batch[j] == k && LiftDue(s, k, envs[j]) && Cleans(envs[j])
  }

  /** The worker owes a lift at position `i` of the batch: the user's stored
      deadline is strictly past there, and no earlier listing has already
      cleared the record (an earlier failed lift leaves it to be retried). */
  ghost predicate OwesLift(s: Store, batch: seq<UserId>, envs: seq<Env>, i: int) {
    && 0 <= i < |batch| && i < |envs|
    && LiftDue(s, batch[i], envs[i])
    && !ClearedAmong(s, batch, envs, batch[i], i)
  }

  /** The lift owed at position `i`: the user, its stored deadline, the clock
      there and the platform's answer there. */
  ghost function OwedLift(s: Store, batch: seq<UserId>, envs: seq<Env>, i: int): Event
    requires OwesLift(s, batch, envs, i)
  {
    Lift(batch[i], Deadline(s, batch[i]).value, envs[i].now, envs[i].unmuted)
  }

  /** One batch from the queue, handled key by key in order. Every listing
      of a user, not just the first, is judged against the store as the
      batch found it: a user is lifted at each listing where its deadline
      is strictly past until one lift succeeds and clears the record. */
  function ReconcileBatch(s: Store, batch: seq<UserId>, envs: seq<Env>): (r: Step)
    requires |envs| == |batch|
    ensures Listing.OnlyRemoves(s, r.store)
    ensures forall k :: k in s && k !in batch ==> k in r.store
    ensures LiftsWereDue(s, r.events)
    ensures ClearsFollowLifts(r.events)
    ensures forall k :: k in s && k !in r.store ==> Clear(k) in r.events
    ensures forall k :: k in s ==> (k in r.store <==> !ClearedAmong(s, batch, envs, k, |batch|))
    ensures forall i :: OwesLift(s, batch, envs, i) ==> OwedLift(s, batch, envs, i) in r.events
    ensures forall j :: 0 <= j < |r.events| && r.events[j].Lift? ==>
              exists i :: OwesLift(s, batch, envs, i) && r.events[j] == OwedLift(s, batch, envs, i)
    decreases |batch|
  {
    if |batch| == 0 then Step(s, [])
    else
      var first := ReconcileOne(s, batch[0], envs[0]);
      var rest := ReconcileBatch(first.store, batch[1..], envs[1..]);
      ConcatKeepsOrder(first.events, rest.events);
      FirstUserThenRestKeeps(s, batch, envs, first, rest);
      FirstUserThenRestStore(s, batch, envs, first, rest);
      FirstUserThenRestOwed(s, batch, envs, first, rest);
      FirstUserThenRestOrigin(s, batch, envs, first, rest);
      Step(rest.store, first.events + rest.events)
  }

  /** A user the first key left in the store has the deadline it had, and
      was cleared among the first `n + 1` listings exactly when the rest of
      the batch, seen from the shrunk store, cleared it among its first `n`. */
  lemma ShiftCleared(s: Store, batch: seq<UserId>, envs: seq<Env>, s1: Store, k: UserId, n: int)
    requires |envs| == |batch| && 0 <= n < |batch|
    requires s1 == ReconcileOne(s, batch[0], envs[0]).store
    requires k in s1
    ensures Deadline(s1, k) == Deadline(s, k)
    ensures ClearedAmong(s, batch, envs, k, n + 1) <==> ClearedAmong(s1, batch[1..], envs[1..], k, n)
  {
    if ClearedAmong(s, batch, envs, k, n + 1) {
      var j :| 0 <= j < n + 1 && j < |batch| && batch[j] == k && LiftDue(s, k, envs[j]) && Cleans(envs[j]);
      assert j != 0;
      assert batch[1..][j - 1] == k && envs[1..][j - 1] == envs[j];
    }
    if ClearedAmong(s1, batch[1..], envs[1..], k, n) {
      var j :| 0 <= j < n && j < |batch[1..]| && batch[1..][j] == k && LiftDue(s1, k, envs[1..][j]) && Cleans(envs[1..][j]);
      assert batch[j + 1] == k && envs[j + 1] == envs[1..][j];
    }
  }

  /** The first user and the rest of the batch together only remove
      entries, each right after a successful lift. */
  lemma FirstUserThenRestKeeps(s: Store, batch: seq<UserId>, envs: seq<Env>, first: Step, rest: Step)
    requires |envs| == |batch| > 0
    requires first == ReconcileOne(s, batch[0], envs[0])
    requires Listing.OnlyRemoves(first.store, rest.store)
    requires forall k :: k in first.store && k !in batch[1..] ==> k in rest.store
    requires LiftsWereDue(first.store, rest.events)
    requires forall k :: k in first.store && k !in rest.store ==> Clear(k) in rest.events
    ensures Listing.OnlyRemoves(s, rest.store)
    ensures forall k :: k in s && k !in batch ==> k in rest.store
    ensures LiftsWereDue(s, first.events + rest.events)
    ensures forall k :: k in s && k !in rest.store ==> Clear(k) in first.events + rest.events
  {
    forall k | k in s && k !in batch
      ensures k in rest.store
    {
      assert k !in batch[1..];
    }
    var events := first.events + rest.events;
    forall i | 0 <= i < |events| && events[i].Lift?
      ensures events[i].user in s && s[events[i].user] == Int(events[i].deadline)
      ensures IsDue(events[i].deadline, events[i].now, Strict)
    {
      if i < |first.events| {
        assert events[i] == first.events[i];
      } else {
        assert events[i] == rest.events[i - |first.events|];
      }
    }
    forall k | k in s && k !in rest.store
      ensures Clear(k) in events
    {
      if k in first.store {
        assert Clear(k) in rest.events;
      } else {
        assert Clear(k) in first.events;
      }
    }
  }

  /** A user leaves the store exactly when some listing of it in the batch
      cleared it. */
  lemma FirstUserThenRestStore(s: Store, batch: seq<UserId>, envs: seq<Env>, first: Step, rest: Step)
    requires |envs| == |batch| > 0
    requires first == ReconcileOne(s, batch[0], envs[0])
    requires Listing.OnlyRemoves(first.store, rest.store)
    requires forall k :: k in first.store ==> (k in rest.store <==> !ClearedAmong(first.store, batch[1..], envs[1..], k, |batch| - 1))
    ensures forall k :: k in s ==> (k in rest.store <==> !ClearedAmong(s, batch, envs, k, |batch|))
  {
    forall k | k in s
      ensures k in rest.store <==> !ClearedAmong(s, batch, envs, k, |batch|)
    {
      if k in first.store {
        ShiftCleared(s, batch, envs, first.store, k, |batch| - 1);
      } else {
        assert batch[0] == k && LiftDue(s, k, envs[0]) && Cleans(envs[0]);
      }
    }
  }

  /** Every lift the batch owes is made: at position 0 by the first user,
      later by the rest, which sees the user with the same deadline. */
  lemma FirstUserThenRestOwed(s: Store, batch: seq<UserId>, envs: seq<Env>, first: Step, rest: Step)
    requires |envs| == |batch| > 0
    requires first == ReconcileOne(s, batch[0], envs[0])
    requires forall i :: OwesLift(first.store, batch[1..], envs[1..], i) ==>
               OwedLift(first.store, batch[1..], envs[1..], i) in rest.events
    ensures forall i :: OwesLift(s, batch, envs, i) ==> OwedLift(s, batch, envs, i) in first.events + rest.events
  {
    forall i | OwesLift(s, batch, envs, i)
      ensures OwedLift(s, batch, envs, i) in first.events + rest.events
    {
      if i > 0 {
        var k := batch[i];
        assert !(batch[0] == k && LiftDue(s, k, envs[0]) && Cleans(envs[0]));
        ShiftCleared(s, batch, envs, first.store, k, i - 1);
        assert batch[1..][i - 1] == k && envs[1..][i - 1] == envs[i];
        assert OwesLift(first.store, batch[1..], envs[1..], i - 1);
      }
    }
  }

  /** A lift the rest of the batch owes, seen from the store the first user
      left, is a lift the whole batch owes. */
  lemma RestOwesLift(s: Store, batch: seq<UserId>, envs: seq<Env>, s1: Store, i: int)
    requires |envs| == |batch| > 0
    requires s1 == ReconcileOne(s, batch[0], envs[0]).store
    requires OwesLift(s1, batch[1..], envs[1..], i)
    ensures OwesLift(s, batch, envs, i + 1)
    ensures OwedLift(s1, batch[1..], envs[1..], i) == OwedLift(s, batch, envs, i + 1)
  {
    var k := batch[i + 1];
    assert batch[1..][i] == k && envs[1..][i] == envs[i + 1];
    ShiftCleared(s, batch, envs, s1, k, i);
  }

  /** Every lift the batch makes is one it owes. */
  lemma FirstUserThenRestOrigin(s: Store, batch: seq<UserId>, envs: seq<Env>, first: Step, rest: Step)
    requires |envs| == |batch| > 0
    requires first == ReconcileOne(s, batch[0], envs[0])
    requires forall j :: 0 <= j < |rest.events| && rest.events[j].Lift? ==>
               exists i :: OwesLift(first.store, batch[1..], envs[1..], i)
                           && rest.events[j] == OwedLift(first.store, batch[1..], envs[1..], i)
    ensures forall j :: 0 <= j < |first.events + rest.events| && (first.events + rest.events)[j].Lift? ==>
              exists i :: OwesLift(s, batch, envs, i) && (first.events + rest.events)[j] == OwedLift(s, batch, envs, i)
  {
    var events := first.events + rest.events;
    forall j | 0 <= j < |events| && events[j].Lift?
      ensures exists i :: OwesLift(s, batch, envs, i) && events[j] == OwedLift(s, batch, envs, i)
    {
      if j < |first.events| {
        assert events[j] == first.events[j] == first.events[0];
        assert OwesLift(s, batch, envs, 0);
      } else {
        assert events[j] == rest.events[j - |first.events|];
        var i :| OwesLift(first.store, batch[1..], envs[1..], i)
                 && rest.events[j - |first.events|] == OwedLift(first.store, batch[1..], envs[1..], i);
        RestOwesLift(s, batch, envs, first.store, i);
      }
    }
  }

  /** Appending one call log to another keeps every clear right after its
      lift: a log never starts with a clear. */
  lemma ConcatKeepsOrder(a: seq<Event>, b: seq<Event>)
    requires ClearsFollowLifts(a)
    requires ClearsFollowLifts(b)
    ensures ClearsFollowLifts(a + b)
  {
    forall i | 0 <= i < |a + b| && (a + b)[i].Clear?
      ensures i > 0 && (a + b)[i - 1].Lift? && (a + b)[i - 1].ok && (a + b)[i - 1].user == (a + b)[i].user
    {
      if i < |a| {
        assert (a + b)[i] == a[i] && (a + b)[i - 1] == a[i - 1];
      } else {
        assert (a + b)[i] == b[i - |a|];
        assert (a + b)[i - 1] == b[i - |a| - 1];
      }
    }
  }

  /** The poller's tick: list the muted users and queue the list, or, if the
      listing fails, queue nothing this tick. */
  method PollTick(s: Store, connected: bool, queue: seq<seq<UserId>>) returns (queue': seq<seq<UserId>>)
    ensures !connected ==> queue' == queue
    ensures connected ==>
              && |queue'| == |queue| + 1
              && queue'[..|queue|] == queue
              && Listing.Enumerates(queue'[|queue|], s.Keys)
  {
    var listed := GetAllMutedUserId(s, connected);
    match listed {
      case Ok(keys) =>
        queue' := queue + [keys];
      case Err(_) =>
        queue' := queue;
    }
  }

  /** One step of the batch: the first user, then the rest. */
  lemma BatchUnfolds(s: Store, batch: seq<UserId>, envs: seq<Env>)
    requires |envs| == |batch| > 0
    ensures var first := ReconcileOne(s, batch[0], envs[0]);
            var rest := ReconcileBatch(first.store, batch[1..], envs[1..]);
            ReconcileBatch(s, batch, envs) == Step(rest.store, first.events + rest.events)
  {
  }

  /** Handling `a` and then `b` is handling `a + b`: the worker carries
      nothing from one key to the next but the store. */
  lemma {:induction false} BatchSplits(s: Store, a: seq<UserId>, ea: seq<Env>, b: seq<UserId>, eb: seq<Env>)
    requires |ea| == |a| && |eb| == |b|
    ensures var first := ReconcileBatch(s, a, ea);
            var rest := ReconcileBatch(first.store, b, eb);
            ReconcileBatch(s, a + b, ea + eb) == Step(rest.store, first.events + rest.events)
    decreases |a|
  {
    if |a| == 0 {
      assert a + b == b && ea + eb == eb;
    } else {
      Listing.ExtendedTail(a, b);
      Listing.ExtendedTail(ea, eb);
      var one := ReconcileOne(s, a[0], ea[0]);
      var mid := ReconcileBatch(one.store, a[1..], ea[1..]);
      var rest := ReconcileBatch(mid.store, b, eb);
      var tail := ReconcileBatch(one.store, a[1..] + b, ea[1..] + eb);
      BatchUnfolds(s, a + b, ea + eb);
      assert ReconcileBatch(s, a + b, ea + eb) == Step(tail.store, one.events + tail.events);
      BatchSplits(one.store, a[1..], ea[1..], b, eb);
      assert tail == Step(rest.store, mid.events + rest.events);
      BatchUnfolds(s, a, ea);
      assert ReconcileBatch(s, a, ea) == Step(mid.store, one.events + mid.events);
      Listing.JoinAssociates(one.events, mid.events, rest.events);
    }
  }

  /** The worker draining the queue in FIFO order. Nothing distinguishes the
      end of one batch from the start of the next, so draining is handling
      all queued listings as one batch; in particular a user listed again
      by a later tick is lifted there whenever its deadline is strictly past
      and no earlier listing cleared it, which retries every failed lift. */
  function Drain(s: Store, queue: seq<seq<UserId>>, envs: seq<seq<Env>>): (r: Step)
    requires Listing.Fits(queue, envs)
    ensures |Listing.Flatten(envs)| == |Listing.Flatten(queue)|
    ensures r == ReconcileBatch(s, Listing.Flatten(queue), Listing.Flatten(envs))
    ensures Listing.OnlyRemoves(s, r.store)
    ensures forall k :: k in s && k !in Listing.Flatten(queue) ==> k in r.store
    ensures LiftsWereDue(s, r.events)
    ensures ClearsFollowLifts(r.events)
    ensures forall k :: k in s ==>
              (k in r.store <==> !ClearedAmong(s, Listing.Flatten(queue), Listing.Flatten(envs), k, |Listing.Flatten(queue)|))
    ensures forall i :: OwesLift(s, Listing.Flatten(queue), Listing.Flatten(envs), i) ==>
              OwedLift(s, Listing.Flatten(queue), Listing.Flatten(envs), i) in r.events
    ensures forall j :: 0 <= j < |r.events| && r.events[j].Lift? ==>
              exists i :: && OwesLift(s, Listing.Flatten(queue), Listing.Flatten(envs), i)
                          && r.events[j] == OwedLift(s, Listing.Flatten(queue), Listing.Flatten(envs), i)
    decreases |queue|
  {
    Listing.FlattenFits(queue, envs);
    if |queue| == 0 then Step(s, [])
    else
      var first := ReconcileBatch(s, queue[0], envs[0]);
      var rest := Drain(first.store, queue[1..], envs[1..]);
      BatchSplits(s, queue[0], envs[0], Listing.Flatten(queue[1..]), Listing.Flatten(envs[1..]));
      Step(rest.store, first.events + rest.events)
  }

  // ---------------------------------------------------------------------
  // At-least-once delivery and end-to-end behaviour
  // ---------------------------------------------------------------------

  /** A failed unmute keeps the record, so the next tick lists the user
      again and the worker retries it; only the retry that succeeds clears
      the record. Two ticks each queue a batch naming `u`. */
  lemma FailedLiftIsRetried(s: Store, u: UserId, first: Env, second: Env)
    requires first.getConnected && second.getConnected
    requires Deadline(s, u).Some? && IsDue(Deadline(s, u).value, first.now, Strict)
    requires first.now <= second.now
    requires !first.unmuted && second.unmuted
    requires second.clearConnected && second.deleted
    ensures Listing.Fits([[u], [u]], [[first], [second]])
    ensures var run := Drain(s, [[u], [u]], [[first], [second]]);
            && run.events == [Lift(u, Deadline(s, u).value, first.now, false),
                              Lift(u, Deadline(s, u).value, second.now, true), Clear(u)]
            && run.store == s - {u}
  {
    assert Listing.Fits([[u], [u]], [[first], [second]]);
    var afterFirst := ReconcileOne(s, u, first);
    assert afterFirst == Step(s, [Lift(u, Deadline(s, u).value, first.now, false)]);
    var afterSecond := ReconcileOne(s, u, second);
    assert afterSecond == Step(s - {u}, [Lift(u, Deadline(s, u).value, second.now, true), Clear(u)]);
    assert ReconcileOne(afterFirst.store, u, second) == afterSecond;
    assert afterFirst.events + afterSecond.events
           == [Lift(u, Deadline(s, u).value, first.now, false), Lift(u, Deadline(s, u).value, second.now, true), Clear(u)];
    DrainOfSingles(s, u, u, first, second);
  }

  /** Two ticks that each queue one user: the worker handles the first, then
      the second in the store the first left. */
  lemma DrainOfSingles(s: Store, u: UserId, v: UserId, e: Env, f: Env)
    ensures Listing.Fits([[u], [v]], [[e], [f]])
    ensures var one := ReconcileOne(s, u, e);
            var two := ReconcileOne(one.store, v, f);
            Drain(s, [[u], [v]], [[e], [f]]) == Step(two.store, one.events + two.events)
  {
    var one := ReconcileOne(s, u, e);
    var two := ReconcileOne(one.store, v, f);
    BatchOfOne(s, u, e);
    BatchOfOne(one.store, v, f);
    assert [[u], [v]][1..] == [[v]] && [[e], [f]][1..] == [[f]];
    assert [[v]][1..] == [] && [[f]][1..] == [];
    assert Drain(two.store, [], []) == Step(two.store, []);
    assert Drain(one.store, [[v]], [[f]]) == Step(two.store, two.events + []);
  }

  /** A batch naming one user is the handling of that user. */
  lemma BatchOfOne(s: Store, u: UserId, e: Env)
    ensures ReconcileBatch(s, [u], [e]) == ReconcileOne(s, u, e)
  {
    BatchUnfolds(s, [u], [e]);
    assert [u][1..] == [] && [e][1..] == [];
    assert ReconcileBatch(ReconcileOne(s, u, e).store, [], []) == Step(ReconcileOne(s, u, e).store, []);
    assert ReconcileOne(s, u, e).events + [] == ReconcileOne(s, u, e).events;
  }

  /** Over an empty store a batch records no lift and no clear and leaves
      the store empty (the worker still reads each listed key). */
  lemma {:induction false} EmptyStoreLiftsNoOne(batch: seq<UserId>, envs: seq<Env>)
    requires |envs| == |batch|
    ensures ReconcileBatch(map[], batch, envs) == Step(map[], [])
    decreases |batch|
  {
    if |batch| > 0 {
      EmptyStoreLiftsNoOne(batch[1..], envs[1..]);
    }
  }

  /** A batch in which no listed user's deadline has strictly passed records
      no lift and no clear and leaves the store as it is (the worker still
      reads each listed key). */
  lemma {:induction false} NotDueIsLeftAlone(s: Store, batch: seq<UserId>, envs: seq<Env>)
    requires |envs| == |batch|
    requires forall i :: 0 <= i < |batch| ==>
               Deadline(s, batch[i]).None? || !IsDue(Deadline(s, batch[i]).value, envs[i].now, Strict)
    ensures ReconcileBatch(s, batch, envs) == Step(s, [])
    decreases |batch|
  {
    if |batch| > 0 {
      assert ReconcileOne(s, batch[0], envs[0]) == Step(s, []);
      NotDueIsLeftAlone(s, batch[1..], envs[1..]);
    }
  }
}

=== FILE: wrappers.dfy ===
/** Failure-carrying values used throughout the model: the Rust `Option`,
    `Result<T, E>` and `Result<(), E>` shapes of the scheduler. */
module Wrappers {

  datatype Option<+T> = None | Some(value: T)

  datatype Result<+T, +E> = Ok(value: T) | Err(error: E)

  /** A result that carries no value on success, Rust's `Result<(), E>`. */
  datatype Outcome<+E> = Pass | Fail(error: E)
}
